=== FILE: README.md ===
# ActSNClass core in Dafny

ActSNClass classifies supernovae with pool-based active learning. It does two
things: it reduces each light curve to a fixed-width feature vector, and it
ranks a test pool to decide which objects to label next. This project models
the pure logic of that core and proves properties of it:

- **Per-band Bazin feature assembly** (`LightCurves`, light_curve.dfy). This
  covers `LightCurve.fit_bazin` and `LightCurve.fit_bazin_all`, plus the
  survivor rule `fit_bazin_samples` applies before writing an object out. The
  nonlinear least-squares fitter `bazin.fit_scipy` is a parameter: any total
  function from (rebased times, fluxes) to five floating-point results, each
  of which may be NaN or infinite.
- **SNPCC record header interpretation** (`SnpccHeader`, snpcc_header.dfy).
  This is the keyword dispatch of `LightCurve.load_snpcc_lc` over a file
  already split into whitespace tokens. Lines of one token or none are
  dropped. The model covers `SNID:`, `SNTYPE:`, `SIM_REDSHIFT:`,
  `SIM_NON1a:` with the code-to-type map, `VARLIST:`, `OBS:` and
  `SIM_PEAKMAG:`. An unknown type code is the single error case.
- **Query ranking** (`QueryStrategies`, query_strategies.dfy). This covers
  `uncertainty_sampling` and the intended behaviour of `random_sampling`. The
  random draw is a parameter. Both strategies filter an ordering of the rows
  to queryable ids and keep the first `batch` entries. `np.argsort` is not
  stable, so the uncertainty ranking is specified up to ties: the method
  returns the selection of SOME argsort order, and every property is proved
  for every such order.

common.dfy holds the shared vocabulary: `Option`, `Result`, Python's `s[:k]`
slice, duplicate-freedom and subsequences.

The model follows what the code does, including where that differs from
what a reader of the names or docstrings might expect:

- `uncertainty_sampling` and `random_sampling` return row indices, not ids.
- Only NaN is caught: the test is `str(item) == 'nan'`, so an infinite fit
  parameter passes into the features unchanged.
- The ranking uses `np.argsort`'s default sort, which is not stable, so rows
  with equal scores may come in either order.
- `fit_bazin` rebases time on the band's first row (`time[0]`), not on its
  earliest time.
- A `class_prob` with fewer rows than `test_ids` is accepted, and only its
  rows are ranked.
- `batch` follows Python slice semantics, so a negative `batch` drops rows
  from the end.

## Model

| member | source | states |
|---|---|---|
| `LightCurves.Select` | actsnclass/fit_lightcurves.py:171-175 | the band's rows are exactly as many as `sum(filter_flag)`, all carry the band, every row of the band is kept, and table order is preserved (a subsequence) |
| `LightCurves.Rebase` | actsnclass/fit_lightcurves.py:178 | `time - time[0]` keeps the length, puts the first selected time at 0 and shifts every time by the same amount |
| `LightCurves.BandSeries` | actsnclass/fit_lightcurves.py:171-178 | the fitter's input holds one time and one flux per row of the band, in table order, with each time measured from the band's first row, so the first time is 0 |
| `LightCurves.FitBazin` | actsnclass/fit_lightcurves.py:156-180 | fails (IndexError on `time[0]`) exactly when no row carries the band; otherwise returns the fitter's answer on that band's series and nothing else |
| `LightCurves.BandFeatures` | actsnclass/fit_lightcurves.py:190-205 | each band contributes five slots: five `'None'` when it has at most 4 rows or its fit contains NaN, otherwise the five fit values unchanged and in order; no slot is ever NaN |
| `LightCurves.BazinFeatures` | actsnclass/fit_lightcurves.py:188-205 | the vector has exactly 5 × len(filters) slots whatever the data, and the k-th group of five is the k-th filter's band features |
| `LightCurves.FitBazinAll` | actsnclass/fit_lightcurves.py:182-205 | replaces `bazin_features` by the assembled vector and changes nothing else of the light curve |
| `LightCurves.FitBazinAllIdempotent` | actsnclass/fit_lightcurves.py:188 | the list is reset first: fitting twice equals fitting once, and previously held features have no influence |
| `LightCurves.ThinBandIgnoresFitter` | actsnclass/fit_lightcurves.py:194-205 | a band with at most 4 rows gives five `'None'` whatever the fitter, so the fitter's answer is never consulted for it |
| `LightCurves.SurvivesIffAllBandsUsable` | actsnclass/fit_lightcurves.py:241 | an object survives (no `'None'` in its features) if and only if every band has more than 4 rows and a NaN-free fit |
| `SnpccHeader.Classify` | actsnclass/fit_lightcurves.py:129-138 | Ibc codes map to Ibc, II codes to II, `'0'` to Ia, and every other code raises the unknown-type error, each as an if-and-only-if |
| `SnpccHeader.CodeListsDisjoint` | actsnclass/fit_lightcurves.py:95-99 | the II and Ibc code lists share no code and neither holds `'0'`, so the code-to-type map is a function |
| `SnpccHeader.InformativeLines` | actsnclass/fit_lightcurves.py:107-113 | the filter keeps exactly the lines of more than one token, in file order, a repeated line as often as it occurs (as many lines as the file has informative ones) |
| `SnpccHeader.ShortLineIgnored` | actsnclass/fit_lightcurves.py:110-113 | inserting a blank or single-token line anywhere in a file does not change what is loaded |
| `SnpccHeader.StepEffect` | actsnclass/fit_lightcurves.py:119-144 | one keyword line changes only the field its keyword names, and a line with any other first token changes nothing: SNTYPE `-9` sets test and any other value train, OBS appends its columns, and SIM_PEAKMAG keeps at most four values |
| `SnpccHeader.DispatchLastWins` | actsnclass/fit_lightcurves.py:119-142 | after the loop the SNID, sample, redshift, code and type fields hold what the last line carrying their key sets (or their prior value), and the OBS rows are appended in file order |
| `SnpccHeader.DispatchLastLineFields` | actsnclass/fit_lightcurves.py:139-144 | after the loop the column names are those of the last VARLIST line and the peak magnitudes at most four values of the last SIM_PEAKMAG line (or their prior values when no such line exists) |
| `SnpccHeader.DispatchFailsIffBadType` | actsnclass/fit_lightcurves.py:119-138 | the loop raises if and only if some line carries a `SIM_NON1a:` code outside both lists and `'0'` |
| `SnpccHeader.LoadFields` | actsnclass/fit_lightcurves.py:107-144 | on a raw tokenised file, a successful load holds the last SNID, redshift, sample, code and type set in the file, the column names of the last VARLIST line, at most four values of the last SIM_PEAKMAG line, and exactly the file's OBS rows in file order |
| `SnpccHeader.LoadFailsIffBadType` | actsnclass/fit_lightcurves.py:107-138 | the header dispatch of a raw tokenised file fails if and only if the file has an unknown `SIM_NON1a:` code; the error carries such a code (the carried code is a model addition: the source's message names none) |
| `SnpccHeader.FirstBadCode` | actsnclass/fit_lightcurves.py:119-138 | a reference view of the file: the code of the earliest line with an unknown `SIM_NON1a:` code, with no such line before it, or none when every type line is known |
| `SnpccHeader.DispatchStopsAtFirstBadLine` | actsnclass/fit_lightcurves.py:119-138 | the loop raises exactly when an unknown code occurs, and it is the first such line in order that raises, so later lines are never reached |
| `SnpccHeader.LoadStopsAtFirstBadLine` | actsnclass/fit_lightcurves.py:107-138 | on a raw tokenised file, the dispatch fails exactly when the file has an unknown type code, and the raising line is the first such line in file order (uninformative lines do not shift it) |
| `QueryStrategies.KeepQueryable` | actsnclass/query_strategies.py:59-63 | the mask keeps exactly the rows whose id is queryable, in the given order, as a subsequence, with a repeated row kept as often as it occurs (the length is the number of queryable entries) |
| `QueryStrategies.KeepQueryableUnique` | actsnclass/query_strategies.py:59-63 | the mask's result is the only order-preserving subsequence that holds queryable rows alone and has as many entries as the order has queryable ones |
| `QueryStrategies.SelectQueryable` | actsnclass/query_strategies.py:63-75 | `list(final_order)[:batch]` is a prefix of the queryable rows of length min(batch, their count) for batch ≥ 0, and for a negative batch drops `-batch` of them from the end |
| `QueryStrategies.KeepQueryableSorted` | actsnclass/query_strategies.py:56-63 | filtering an order sorted by score leaves it sorted by score |
| `QueryStrategies.KeepQueryableDistinct` | actsnclass/query_strategies.py:56-63 | filtering a permutation yields pairwise distinct indices |
| `QueryStrategies.ArgSort` | actsnclass/query_strategies.py:56 | returns a permutation of the rows in non-decreasing score |
| `QueryStrategies.OnlyColumnOneMatters` | actsnclass/query_strategies.py:53 | matrices that agree on column 1 have identical scores and admit the same argsort orders, so the strategy is binary-only |
| `QueryStrategies.SelectionFromArgsort` | actsnclass/query_strategies.py:53-75 | for every argsort order, ties in any order: at most `batch` indices, all valid rows with queryable ids, pairwise distinct, in non-decreasing score, and top-`batch` |
| `QueryStrategies.UncertaintySampling` | actsnclass/query_strategies.py:24-75 | returns the selection of some argsort order: at most `batch` indices, empty when `batch` is 0 or nothing is queryable, queryable, distinct, ranked by score; all queryable rows when the batch is not full, and none better-scored left out |
| `QueryStrategies.SelectsBothQueryableRows` | actsnclass/query_strategies.py:53-75 | with exactly two queryable rows and a batch of two, both are returned, the one closer to 0.5 first |
| `QueryStrategies.UncertaintyWorkedExample` | actsnclass/query_strategies.py:53-75 | ids 10, 20, 30, 40 with column-1 probabilities 0.1, 0.5, 0.4, 0.05, ids 10 and 30 queryable and batch 2 give rows [2, 0] under every argsort order |
| `QueryStrategies.RandomSampling` | actsnclass/query_strategies.py:104-120 | intended behaviour over a supplied draw: a prefix of the draw's queryable entries (repeats kept) of length min(`batch`, their count) for `batch` ≥ 0 (their count less `-batch`, at least 0, for a negative `batch`), so the FIRST `batch` queryable draws; each a valid row with a queryable id, in draw order, and every queryable draw when the batch is not full |
| `QueryStrategies.RandomSamplingWithoutReplacement` | actsnclass/query_strategies.py:104-120 | with the draw a permutation of the rows: no duplicates, and a batch at least the pool size returns exactly the queryable rows |
| `QueryStrategies.DrawWithReplacementRepeats` | actsnclass/query_strategies.py:106 | on the two-row pool `[7, 8]` the with-replacement draw `[0, 0]`, one line 106 can produce, returns row 0 twice with batch 2 |
| `QueryStrategies.RandomSamplingAsWritten` | actsnclass/query_strategies.py:109-120 | as written, the mask comes from whatever `order` is bound to: NameError when it is unbound, and otherwise the mask length must match the draw |
| `QueryStrategies.RandomSamplingAsWrittenFails` | actsnclass/query_strategies.py:109 | in the function's own scope line 109 raises NameError for every input; a stale `order` would let a non-queryable row through where the intended strategy does not |

## Left out

- Reading the SNPCC file (fit_lightcurves.py:102-104) is I/O. The model starts from the file's lines, already split into tokens.
- The `int(...)` and `float(...)` conversions of the SNID, redshift, peak magnitudes and photometry columns (121, 128, 144, 150-154) are left out, along with the `ValueError` they raise on malformed numbers. Header values stay raw tokens.
- Building the photometry table from the OBS rows by VARLIST column name (147-154) is left out. The feature assembly takes an already-built table of `Observation` rows.
- The dataset name `'SNPCC'` and the filter list g, r, i, z (89-92) are constants set by the loader with no logic of their own. The feature assembly takes the filter list as data.
- Writing a survivor's features as text (247-251) is output formatting. `Missing` stands for the `'None'` token it prints.
- `bazin.fit_scipy` is an external floating-point optimiser. It is the `Fitter` parameter.
- `fit_bazin_samples` (208-253) lists a directory, writes a header, re-opens the output file per object and prints progress; `main` (256-270) only sets paths. This is all I/O. Only the survivor predicate at line 241 is modelled (`Survives`).
- `np.random.seed` and `np.random.randint` (105-106) are a global random number generator. The drawn index sequence is a parameter of `RandomSampling`, and the `seed=42` parameter has no counterpart.
- With an empty `test_ids` the draw at line 106 is empty (no samples are taken), and `RandomSampling` returns `[]`, the intended result. Even with `order` corrected to `indx`, line 120 would still raise IndexError there: the empty mask list becomes a float-dtype array, the same failure as at line 63 below.
- `UncertaintySampling` requires every row of `class_prob` to have at least two columns. With fewer, `class_prob[:, 1]` at line 53 raises IndexError, and the model does not follow that failure.
- The default `batch=1` of both strategies (lines 25 and 79) is not modelled. `batch` is always passed explicitly.
- `uncertainty_sampling` on a `class_prob` with zero rows raises IndexError at line 63. The mask list is empty, `np.array([])` has float dtype, and numpy refuses float arrays as indices. `UncertaintySampling` returns `[]` there.
- A `class_prob` with more rows than `test_ids` makes `test_ids[order]` raise IndexError at line 59. `UncertaintySampling` requires `|classProb| <= |testIds|`, so it does not model that failure.
- An empty SNPCC file raises IndexError at line 113 for the same float-dtype reason. `Load` returns the initial header for it.
- After the dispatch loop, `load_snpcc_lc` also raises in the table building (147-154), which is not modelled. There is a ValueError from `header.index` when the last `VARLIST:` line lacks any of MJD, FLT, FLUXCAL, FLUXCALERR or SNR, or when there is no `VARLIST:` line at all. There is an IndexError from `photometry_raw[:, ...]` when the file has no `OBS:` line. So `LoadFailsIffBadType` and `LoadStopsAtFirstBadLine` speak of the header dispatch only, not of every failure of the whole loader.
- `SnpccHeader.HeaderError`: the source's `ValueError('Unknown supernova type!')` names no code. `UnknownType(code)` carries one so that the raising line can be identified.
- The `screen` printing branches (65-72, 113-117) are diagnostic output. Line 71 can also raise IndexError when nothing is queryable.
- numpy and pandas container mechanics are left out. Only their filter and set-membership meaning is modelled. This includes `isin` on arrays. The failures an empty mask causes are listed above.
- `Load` assumes the older numpy behaviour, where lines with different token counts become an object array of plain lists. From numpy 1.24 on, `np.array([elem.split() for elem in lin])` (107) raises ValueError whenever the lines differ in token count, which a real SNPCC file always does. When all lines have the same count, `line[1:]` is an ndarray, and `header.index` at line 150 fails because an ndarray has no `.index`. Neither failure is modelled.
- `QueryStrategies.UncertaintySampling`: scores are exact reals, not float64. Rounding in `abs(p - 0.5)` could reorder rows whose scores differ by less than machine precision.
- `LightCurves.FitBazin`: rebased times are exact reals, not float64 differences.

## Findings

| source | as written | input that shows it | evidently intended | confidence | as-written member | corrected member |
|---|---|---|---|---|---|---|
| actsnclass/query_strategies.py:109 | the queryable mask is computed from `test_ids[order]`, and `order` is not bound in `random_sampling` | any call, e.g. `test_ids = [10, 20]`, `queryable_ids = [10]`: NameError; with a stale `order = [1, 0]` and draw `[0, 1]`, row 1 (id 20, not queryable) is returned | mask the drawn `indx` itself: `test_ids[indx]` against `queryable_ids` | high; not executed | `QueryStrategies.RandomSamplingAsWritten` | `QueryStrategies.RandomSampling` |
| actsnclass/query_strategies.py:106 | `np.random.randint(0, len(test_ids), size=len(test_ids))` draws indices with replacement | draw `[0, 0]` (one of the four length-2 draws on a two-row pool), `test_ids = [7, 8]`, `queryable_ids = [7]`, `batch = 2` returns `[0, 0]` | draw a permutation of the rows, so no object is queried twice in one batch | medium; not executed | `QueryStrategies.DrawWithReplacementRepeats` | `QueryStrategies.RandomSamplingWithoutReplacement` |

=== FILE: common.dfy ===
/** Small shared vocabulary: optional values, results with an error side,
    Python's `s[:k]` slice, duplicate-freedom and subsequences. */
module Common {

  datatype Option<+T> = None | Some(value: T)

  datatype Result<+R, +E> = Success(value: R) | Failure(error: E)

  /** Python's `s[:k]` on a list: a non-negative `k` keeps the first `k`
      elements (all of them when `k` exceeds the length), a negative `k`
      drops the last `-k` elements (everything when `-k` exceeds the length). */
  function SlicePrefix<T>(s: seq<T>, k: int): (r: seq<T>)
    ensures k >= 0 ==> |r| == if k < |s| then k else |s|
    ensures k < 0 ==> |r| == if |s| + k > 0 then |s| + k else 0
    ensures r <= s
  {
    if k >= 0 then
      (if k < |s| then s[..k] else s)
    else
      (if |s| + k > 0 then s[..|s| + k] else [])
  }

  /** No value occurs twice. */
  predicate Distinct<T(==)>(s: seq<T>)
  {
    forall a, b :: 0 <= a < b < |s| ==> s[a] != s[b]
  }

  /** `a` is `b` with some elements deleted, the rest kept in order. */
  predicate IsSubsequence<T(==)>(a: seq<T>, b: seq<T>)
    decreases |b|
  {
    if b == [] then a == []
    else
      || (a != [] && a[0] == b[0] && IsSubsequence(a[1..], b[1..]))
      || IsSubsequence(a, b[1..])
  }

  /** Every prefix of a sequence is a subsequence of it. */
  lemma {:induction false} PrefixIsSubsequence<T>(a: seq<T>, b: seq<T>)
    requires a <= b
    ensures IsSubsequence(a, b)
    decreases |b|
  {
    if b != [] {
      if a == [] {
        PrefixIsSubsequence(a, b[1..]);
      } else {
        assert a[0] == b[0];
        PrefixIsSubsequence(a[1..], b[1..]);
      }
    }
  }

  /** Being a subsequence is transitive. */
  lemma {:induction false} SubsequenceTransitive<T>(a: seq<T>, b: seq<T>, c: seq<T>)
    requires IsSubsequence(a, b) && IsSubsequence(b, c)
    ensures IsSubsequence(a, c)
    decreases |c|
  {
    if c != [] {
      if IsSubsequence(b, c[1..]) {
        SubsequenceTransitive(a, b, c[1..]);
      } else {
        assert b[0] == c[0] && IsSubsequence(b[1..], c[1..]);
        if a != [] && a[0] == b[0] && IsSubsequence(a[1..], b[1..]) {
          SubsequenceTransitive(a[1..], b[1..], c[1..]);
        } else {
          SubsequenceTransitive(a, b[1..], c[1..]);
        }
      }
    }
  }

  /** A subsequence keeps only elements of the original. */
  lemma {:induction false} SubsequenceMembers<T>(a: seq<T>, b: seq<T>)
    requires IsSubsequence(a, b)
    ensures forall x :: x in a ==> x in b
    decreases |b|
  {
    if b != [] {
      if a != [] && a[0] == b[0] && IsSubsequence(a[1..], b[1..]) {
        SubsequenceMembers(a[1..], b[1..]);
        assert a == [a[0]] + a[1..];
      } else {
        SubsequenceMembers(a, b[1..]);
      }
    }
  }
}

=== FILE: light_curve.dfy ===
/** Per-band Bazin feature assembly of `LightCurve` (fit_lightcurves.py):
    band selection and time rebasing (`fit_bazin`), the fixed-width feature
    vector with `'None'` sentinels (`fit_bazin_all`), and the survivor rule
    applied by `fit_bazin_samples`.

    The nonlinear least-squares fitter is not modelled: it is a parameter
    of type `Fitter`, any total function from (times, fluxes) to five
    floating-point results. */
module LightCurves {
  import opened Common

  /** A floating-point result of the fitter. Only the distinctions the
      feature assembly looks at are kept: NaN, the two infinities and an
      ordinary finite value. */
  datatype Value = Finite(x: real) | NaN | PosInf | NegInf

  /** The five best-fit Bazin parameters, in the order the fitter returns
      them: amplitude, offset, peak time, fall time, rise time. */
  datatype BazinParams = BazinParams(a: Value, b: Value, t0: Value, tfall: Value, trise: Value)
  {
    function AsSeq(): (r: seq<Value>)
      ensures |r| == 5
    {
      [a, b, t0, tfall, trise]
    }
  }

  /** The fitter, abstracted: rebased times and fluxes in, five values out. */
  type Fitter = (seq<real>, seq<real>) -> BazinParams

  /** One slot of the feature vector: a fitted value, or the `'None'`
      sentinel string the source appends for a band it cannot fit. */
  datatype Feature = Param(v: Value) | Missing

  /** One photometry row: [mjd, band, flux, fluxerr, SNR]. */
  datatype Observation = Observation(mjd: real, band: string, flux: real, fluxerr: real, snr: real)

  /** The parts of a light curve the feature assembly reads and writes. */
  datatype LightCurve = LightCurve(
    id: int,
    filters: seq<string>,
    photometry: seq<Observation>,
    bazinFeatures: seq<Feature>)

  /** The rows a band needs before it is fitted: strictly more than four. */
  const MinRowsExclusive: nat := 4

  /** Number of slots each band contributes to the feature vector. */
  const SlotsPerBand: nat := 5

  /** `sum(photometry['band'] == band)`: how many rows carry the band. */
  function Count(phot: seq<Observation>, band: string): nat
  {
    if phot == [] then 0
    else (if phot[0].band == band then 1 else 0) + Count(phot[1..], band)
  }

  /** The rows of one band, in table order (the boolean-mask selection). */
  function Select(phot: seq<Observation>, band: string): (r: seq<Observation>)
    ensures |r| == Count(phot, band)
    ensures forall k :: 0 <= k < |r| ==> r[k].band == band
    ensures forall o :: o in phot && o.band == band ==> o in r
    ensures IsSubsequence(r, phot)
  {
    if phot == [] then []
    else if phot[0].band == band then [phot[0]] + Select(phot[1..], band)
    else Select(phot[1..], band)
  }

  /** `time - time[0]`: shift so the first selected time is zero. The source
      indexes `time[0]`, so an empty band raises; the caller never asks. */
  function Rebase(times: seq<real>): (r: seq<real>)
    requires |times| > 0
    ensures |r| == |times|
    ensures r[0] == 0.0
    ensures forall k :: 0 <= k < |r| ==> r[k] + times[0] == times[k]
  {
    seq(|times|, k requires 0 <= k < |times| => times[k] - times[0])
  }

  function Times(rows: seq<Observation>): (r: seq<real>)
    ensures |r| == |rows| && forall k :: 0 <= k < |r| ==> r[k] == rows[k].mjd
  {
    seq(|rows|, k requires 0 <= k < |rows| => rows[k].mjd)
  }

  function Fluxes(rows: seq<Observation>): (r: seq<real>)
    ensures |r| == |rows| && forall k :: 0 <= k < |r| ==> r[k] == rows[k].flux
  {
    seq(|rows|, k requires 0 <= k < |rows| => rows[k].flux)
  }

  /** Some row carries the band. */
  predicate HasBand(phot: seq<Observation>, band: string)
  {
    exists k :: 0 <= k < |phot| && phot[k].band == band
  }

  /** The band's count is positive exactly when some row carries it. */
  lemma {:induction false} CountPositiveIffHasBand(phot: seq<Observation>, band: string)
    ensures Count(phot, band) > 0 <==> HasBand(phot, band)
  {
    if phot != [] {
      CountPositiveIffHasBand(phot[1..], band);
      if HasBand(phot, band) && phot[0].band != band {
        var k :| 0 <= k < |phot| && phot[k].band == band;
        assert phot[1..][k - 1].band == band;
      }
    }
  }

  /** What `fit_bazin` hands the fitter: the band's times, shifted so its
      FIRST row (not its earliest time) is at zero, and its fluxes, both in
      table order. */
  function BandSeries(phot: seq<Observation>, band: string): (s: (seq<real>, seq<real>))
    requires HasBand(phot, band)
    ensures |s.0| == |s.1| == |Select(phot, band)| > 0
    ensures s.0[0] == 0.0
    ensures forall k :: 0 <= k < |s.0| ==> s.0[k] == Select(phot, band)[k].mjd - Select(phot, band)[0].mjd
    ensures forall k :: 0 <= k < |s.1| ==> s.1[k] == Select(phot, band)[k].flux
  {
    CountPositiveIffHasBand(phot, band);
    var rows := Select(phot, band);
    (Rebase(Times(rows)), Fluxes(rows))
  }

  /** Why `fit_bazin` itself can fail: a band with no rows has no `time[0]`. */
  datatype FitError = EmptyBand

  /** `fit_bazin`: the fitter applied to one band's series; a band no row
      carries raises instead. */
  function FitBazin(phot: seq<Observation>, band: string, fitter: Fitter): (r: Result<BazinParams, FitError>)
    ensures r.Failure? <==> !HasBand(phot, band)
    ensures r.Success? ==> r.value == fitter(BandSeries(phot, band).0, BandSeries(phot, band).1)
  {
    if !HasBand(phot, band) then Failure(EmptyBand)
    else
      var series := BandSeries(phot, band);
      Success(fitter(series.0, series.1))
  }

  /** `str(item) == 'nan'` for some item: only NaN is caught; infinities
      print as `inf`/`-inf` and pass. */
  predicate HasNaN(p: BazinParams)
  {
    p.a == NaN || p.b == NaN || p.t0 == NaN || p.tfall == NaN || p.trise == NaN
  }

  /** Five `'None'` sentinels. */
  function MissingGroup(): (r: seq<Feature>)
    ensures |r| == SlotsPerBand
    ensures forall j :: 0 <= j < |r| ==> r[j] == Missing
  {
    [Missing, Missing, Missing, Missing, Missing]
  }

  /** What one iteration of the band loop of `fit_bazin_all` appends. */
  function BandFeatures(phot: seq<Observation>, band: string, fitter: Fitter): (r: seq<Feature>)
    ensures |r| == SlotsPerBand
    ensures Count(phot, band) <= MinRowsExclusive ==> r == MissingGroup()
    ensures Count(phot, band) > MinRowsExclusive ==>
      && FitBazin(phot, band, fitter).Success?
      && var fit := FitBazin(phot, band, fitter).value;
      && (HasNaN(fit) ==> r == MissingGroup())
      && (!HasNaN(fit) ==> forall j :: 0 <= j < SlotsPerBand ==> r[j] == Param(fit.AsSeq()[j]))
    ensures forall j :: 0 <= j < |r| && r[j].Param? ==> r[j].v != NaN
  {
    CountPositiveIffHasBand(phot, band);
    if Count(phot, band) > MinRowsExclusive then
      var fit := FitBazin(phot, band, fitter).value;
      if HasNaN(fit) then MissingGroup()
      else [Param(fit.a), Param(fit.b), Param(fit.t0), Param(fit.tfall), Param(fit.trise)]
    else
      MissingGroup()
  }

  /** The slot group of the `k`-th band. */
  function Group(features: seq<Feature>, k: nat): seq<Feature>
    requires SlotsPerBand * k + SlotsPerBand <= |features|
  {
    features[SlotsPerBand * k .. SlotsPerBand * k + SlotsPerBand]
  }

  /** Slot groups of a vector that starts with one band's group. */
  lemma GroupOfAppend(head: seq<Feature>, tail: seq<Feature>, k: nat)
    requires |head| == SlotsPerBand
    requires SlotsPerBand * k + SlotsPerBand <= |head| + |tail|
    ensures k == 0 ==> Group(head + tail, k) == head
    ensures k > 0 ==> Group(head + tail, k) == Group(tail, k - 1)
  {
  }

  /** The feature vector built by the band loop of `fit_bazin_all`, starting
      from an empty list. */
  function BazinFeatures(filters: seq<string>, phot: seq<Observation>, fitter: Fitter): (r: seq<Feature>)
    ensures |r| == SlotsPerBand * |filters|
    ensures forall k {:trigger Group(r, k)} :: 0 <= k < |filters| ==> Group(r, k) == BandFeatures(phot, filters[k], fitter)
    ensures forall j :: 0 <= j < |r| && r[j].Param? ==> r[j].v != NaN
  {
    if filters == [] then []
    else
      var head := BandFeatures(phot, filters[0], fitter);
      var tail := BazinFeatures(filters[1..], phot, fitter);
      var r := head + tail;
      assert forall k :: 0 <= k < |filters| ==> Group(r, k) == BandFeatures(phot, filters[k], fitter) by {
        forall k | 0 <= k < |filters| ensures Group(r, k) == BandFeatures(phot, filters[k], fitter) {
          GroupOfAppend(head, tail, k);
          if k > 0 {
            assert filters[k] == filters[1..][k - 1];
          }
        }
      }
      r
  }

  /** `fit_bazin_all`: reset `bazin_features`, then fill it band by band. */
  function FitBazinAll(lc: LightCurve, fitter: Fitter): (r: LightCurve)
    ensures r.id == lc.id && r.filters == lc.filters && r.photometry == lc.photometry
    ensures |r.bazinFeatures| == SlotsPerBand * |lc.filters|
    ensures forall k :: 0 <= k < |lc.filters| ==>
      Group(r.bazinFeatures, k) == BandFeatures(lc.photometry, lc.filters[k], fitter)
  {
    lc.(bazinFeatures := BazinFeatures(lc.filters, lc.photometry, fitter))
  }

  /** Refitting gives the same features: nothing accumulates across calls,
      and the features held before the call play no part. */
  lemma FitBazinAllIdempotent(lc: LightCurve, other: seq<Feature>, fitter: Fitter)
    ensures FitBazinAll(FitBazinAll(lc, fitter), fitter) == FitBazinAll(lc, fitter)
    ensures FitBazinAll(lc.(bazinFeatures := other), fitter) == FitBazinAll(lc, fitter)
  {
  }

  /** A band too thin to fit never consults the fitter: its slots are the
      same whatever fitter is supplied. */
  lemma ThinBandIgnoresFitter(phot: seq<Observation>, band: string, f: Fitter, g: Fitter)
    requires Count(phot, band) <= MinRowsExclusive
    ensures BandFeatures(phot, band, f) == BandFeatures(phot, band, g) == MissingGroup()
  {
  }

  /** Line 241 of `fit_bazin_samples`: an object survives, and is written
      out, when no slot holds the `'None'` sentinel. */
  predicate Survives(features: seq<Feature>)
  {
    Missing !in features
  }

  /** A band is usable when it has enough rows and its fit has no NaN. */
  predicate BandUsable(phot: seq<Observation>, band: string, fitter: Fitter)
  {
    && Count(phot, band) > MinRowsExclusive
    && match FitBazin(phot, band, fitter)
       case Success(fit) => !HasNaN(fit)
       case Failure(_) => false
  }

  /** An object survives exactly when every one of its bands is usable:
      completeness is required across all bands, not per band. */
  lemma {:induction false} SurvivesIffAllBandsUsable(filters: seq<string>, phot: seq<Observation>, fitter: Fitter)
    ensures Survives(BazinFeatures(filters, phot, fitter))
        <==> forall k :: 0 <= k < |filters| ==> BandUsable(phot, filters[k], fitter)
  {
    if filters != [] {
      SurvivesIffAllBandsUsable(filters[1..], phot, fitter);
      var head := BandFeatures(phot, filters[0], fitter);
      var tail := BazinFeatures(filters[1..], phot, fitter);
      assert BazinFeatures(filters, phot, fitter) == head + tail;
      assert Missing !in head <==> BandUsable(phot, filters[0], fitter) by {
        if !BandUsable(phot, filters[0], fitter) {
          assert head[0] == Missing;
        }
      }
      assert (forall k :: 0 <= k < |filters| ==> BandUsable(phot, filters[k], fitter))
         <==> BandUsable(phot, filters[0], fitter)
              && (forall k :: 0 <= k < |filters[1..]| ==> BandUsable(phot, filters[1..][k], fitter)) by {
        if forall k :: 0 <= k < |filters[1..]| ==> BandUsable(phot, filters[1..][k], fitter) {
          forall k | 1 <= k < |filters| ensures BandUsable(phot, filters[k], fitter) {
            assert filters[k] == filters[1..][k - 1];
          }
        }
      }
    }
  }
}

=== FILE: query_strategies.dfy ===
/** The query strategies of query_strategies.py: rank the rows of a test
    sample and return the row indices to be labelled next.

    Both strategies share one core: walk the rows in some order, keep the
    rows whose id is queryable, and return the first `batch` of them. They
    differ in the order: ascending distance to the decision boundary for
    `uncertainty_sampling`, a random draw for `random_sampling`. The random
    draw itself is not modelled: the drawn index sequence is a parameter. */
module QueryStrategies {
  import opened Common

  // ----- Shared core: filter, then truncate -----

  /** Every entry is a valid row index for a table of `n` rows. */
  predicate InRange(s: seq<nat>, n: nat)
  {
    forall k :: 0 <= k < |s| ==> s[k] < n
  }

  /** How many entries of `indx` (repeats counted) have a queryable id. */
  function CountQueryable(indx: seq<nat>, testIds: seq<int>, queryable: set<int>): nat
    requires InRange(indx, |testIds|)
  {
    if indx == [] then 0
    else
      (if testIds[indx[0]] in queryable then 1 else 0) + CountQueryable(indx[1..], testIds, queryable)
  }

  /** `indx[pd.Series(test_ids[indx]).isin(queryable_ids)]`: the rows whose
      id is queryable, in the order given, each entry of `indx` kept as
      often as it occurs there. */
  function KeepQueryable(indx: seq<nat>, testIds: seq<int>, queryable: set<int>): (r: seq<nat>)
    requires InRange(indx, |testIds|)
    ensures |r| == CountQueryable(indx, testIds, queryable)
    ensures |r| <= |indx|
    ensures InRange(r, |testIds|)
    ensures forall k :: 0 <= k < |r| ==> testIds[r[k]] in queryable
    ensures forall k :: 0 <= k < |indx| && testIds[indx[k]] in queryable ==> indx[k] in r
    ensures forall x :: x in r ==> x in indx
    ensures IsSubsequence(r, indx)
  {
    if indx == [] then []
    else
      var tail := KeepQueryable(indx[1..], testIds, queryable);
      assert forall k :: 1 <= k < |indx| ==> indx[k] == indx[1..][k - 1];
      if testIds[indx[0]] in queryable then [indx[0]] + tail else tail
  }

  /** `list(indx[flag])[:batch]`: the first `batch` queryable rows of the
      given order (Python slice semantics, so a negative `batch` drops rows
      from the end). */
  function SelectQueryable(indx: seq<nat>, testIds: seq<int>, queryable: set<int>, batch: int): (r: seq<nat>)
    requires InRange(indx, |testIds|)
    ensures r <= KeepQueryable(indx, testIds, queryable)
    ensures batch >= 0 ==> |r| == if batch < |KeepQueryable(indx, testIds, queryable)|
                                  then batch else |KeepQueryable(indx, testIds, queryable)|
    ensures batch < 0 ==> |r| == if |KeepQueryable(indx, testIds, queryable)| + batch > 0
                                 then |KeepQueryable(indx, testIds, queryable)| + batch else 0
  {
    SlicePrefix(KeepQueryable(indx, testIds, queryable), batch)
  }

  // ----- Orders -----

  /** The rows appear in non-decreasing order of `key`. */
  predicate SortedBy(s: seq<nat>, key: seq<real>)
  {
    && InRange(s, |key|)
    && forall a, b :: 0 <= a < b < |s| ==> key[s[a]] <= key[s[b]]
  }

  /** `order` lists every row of an `n`-row table exactly once. */
  predicate IsRowPermutation(order: seq<nat>, n: nat)
  {
    && |order| == n
    && InRange(order, n)
    && Distinct(order)
    && forall j :: 0 <= j < n ==> j in order
  }

  /** What `np.argsort` may return: a permutation of the rows sorted by
      `key`. Its default sort is not stable, so ties may come in any order. */
  predicate IsArgsort(order: seq<nat>, key: seq<real>)
  {
    IsRowPermutation(order, |key|) && SortedBy(order, key)
  }

  lemma {:induction false} KeepQueryableSorted(indx: seq<nat>, testIds: seq<int>, queryable: set<int>, key: seq<real>)
    requires InRange(indx, |testIds|)
    requires SortedBy(indx, key)
    ensures SortedBy(KeepQueryable(indx, testIds, queryable), key)
  {
    if indx != [] {
      var tail := indx[1..];
      assert SortedBy(tail, key) by {
        forall a, b | 0 <= a < b < |tail| ensures key[tail[a]] <= key[tail[b]] {
          assert tail[a] == indx[a + 1] && tail[b] == indx[b + 1];
        }
      }
      KeepQueryableSorted(tail, testIds, queryable, key);
      var kt := KeepQueryable(tail, testIds, queryable);
      forall x | x in kt ensures key[indx[0]] <= key[x] {
        var j :| 0 <= j < |tail| && tail[j] == x;
        assert indx[j + 1] == x;
      }
    }
  }

  lemma {:induction false} KeepQueryableDistinct(indx: seq<nat>, testIds: seq<int>, queryable: set<int>)
    requires InRange(indx, |testIds|)
    requires Distinct(indx)
    ensures Distinct(KeepQueryable(indx, testIds, queryable))
  {
    if indx != [] {
      var tail := indx[1..];
      assert Distinct(tail) by {
        forall a, b | 0 <= a < b < |tail| ensures tail[a] != tail[b] {
          assert tail[a] == indx[a + 1] && tail[b] == indx[b + 1];
        }
      }
      KeepQueryableDistinct(tail, testIds, queryable);
      assert indx[0] !in tail by {
        forall j | 0 <= j < |tail| ensures tail[j] != indx[0] {
          assert tail[j] == indx[j + 1];
        }
      }
    }
  }

  /** Every queryable entry of `indx` is a queryable-only subsequence, and
      none is longer than the count of queryable entries. */
  lemma {:induction false} QueryableSubsequenceBound(indx: seq<nat>, testIds: seq<int>, queryable: set<int>, s: seq<nat>)
    requires InRange(indx, |testIds|)
    requires IsSubsequence(s, indx)
    requires forall k :: 0 <= k < |s| ==> s[k] < |testIds| && testIds[s[k]] in queryable
    ensures |s| <= CountQueryable(indx, testIds, queryable)
    decreases |indx|
  {
    if indx != [] {
      var tail := indx[1..];
      assert InRange(tail, |testIds|) by {
        forall k | 0 <= k < |tail| ensures tail[k] < |testIds| {
          assert tail[k] == indx[k + 1];
        }
      }
      if s != [] && s[0] == indx[0] && IsSubsequence<nat>(s[1..], tail) {
        QueryableSubsequenceBound(tail, testIds, queryable, s[1..]);
      } else {
        QueryableSubsequenceBound(tail, testIds, queryable, s);
      }
    }
  }

  /** The filter is the ONLY subsequence of `indx` that holds queryable
      rows alone and as many of them as `indx` has: repeats included,
      nothing reordered. */
  lemma {:induction false} KeepQueryableUnique(indx: seq<nat>, testIds: seq<int>, queryable: set<int>, s: seq<nat>)
    requires InRange(indx, |testIds|)
    requires IsSubsequence(s, indx)
    requires forall k :: 0 <= k < |s| ==> s[k] < |testIds| && testIds[s[k]] in queryable
    requires |s| == CountQueryable(indx, testIds, queryable)
    ensures s == KeepQueryable(indx, testIds, queryable)
    decreases |indx|
  {
    if indx != [] {
      var tail := indx[1..];
      assert InRange(tail, |testIds|) by {
        forall k | 0 <= k < |tail| ensures tail[k] < |testIds| {
          assert tail[k] == indx[k + 1];
        }
      }
      if s != [] && s[0] == indx[0] && IsSubsequence<nat>(s[1..], tail) {
        KeepQueryableUnique(tail, testIds, queryable, s[1..]);
        assert s == [s[0]] + s[1..];
      } else {
        QueryableSubsequenceBound(tail, testIds, queryable, s);
        KeepQueryableUnique(tail, testIds, queryable, s);
      }
    }
  }

  // ----- Uncertainty sampling -----

  /** The matrix has the probability column the strategy reads. */
  predicate HasClassOne(classProb: seq<seq<real>>)
  {
    forall i :: 0 <= i < |classProb| ==> |classProb[i]| >= 2
  }

  function Abs(x: real): real
  {
    if x < 0.0 then -x else x
  }

  /** `abs(class_prob[:, 1] - 0.5)`: distance of each row from the binary
      decision boundary. Only column 1 is read. */
  function Scores(classProb: seq<seq<real>>): (r: seq<real>)
    requires HasClassOne(classProb)
    ensures |r| == |classProb|
    ensures forall i :: 0 <= i < |r| ==> r[i] >= 0.0
  {
    seq(|classProb|, i requires 0 <= i < |classProb| => Abs(classProb[i][1] - 0.5))
  }

  /** Two matrices that agree on column 1 score every row alike, so they
      admit exactly the same argsort orders and selections: the strategy is
      binary-only. */
  lemma OnlyColumnOneMatters(p: seq<seq<real>>, q: seq<seq<real>>)
    requires HasClassOne(p) && HasClassOne(q)
    requires |p| == |q|
    requires forall i :: 0 <= i < |p| ==> p[i][1] == q[i][1]
    ensures Scores(p) == Scores(q)
    ensures forall order :: IsArgsort(order, Scores(p)) <==> IsArgsort(order, Scores(q))
  {
  }

  /** Every queryable row is returned when the batch is not full, and a
      queryable row left out is never closer to the boundary than a
      returned one. */
  predicate TopK(r: seq<nat>, key: seq<real>, testIds: seq<int>, queryable: set<int>, batch: int)
    requires InRange(r, |key|)
    requires |key| <= |testIds|
  {
    && (batch >= 0 && |r| < batch ==>
          forall i :: 0 <= i < |key| && testIds[i] in queryable ==> i in r)
    && (forall i, k :: 0 <= i < |key| && testIds[i] in queryable && i !in r && 0 <= k < |r| ==>
          key[r[k]] <= key[i])
  }

  /** A prefix of a ranked, duplicate-free list is ranked and duplicate-free. */
  lemma PrefixKeepsOrder(r: seq<nat>, f: seq<nat>, key: seq<real>)
    requires r <= f
    requires SortedBy(f, key) && Distinct(f)
    ensures SortedBy(r, key) && Distinct(r)
  {
  }

  /** A queryable row left out of the first `|r|` entries of the filtered
      order sits later in it, so it scores no better than any returned row. */
  lemma {:induction false} LeftOutScoresNoBetter(key: seq<real>, testIds: seq<int>, queryable: set<int>, batch: int, order: seq<nat>)
    requires |key| <= |testIds|
    requires IsArgsort(order, key)
    requires InRange(order, |testIds|)
    requires SortedBy(KeepQueryable(order, testIds, queryable), key)
    ensures var r := SelectQueryable(order, testIds, queryable, batch);
      InRange(r, |key|) && TopK(r, key, testIds, queryable, batch)
  {
    var f := KeepQueryable(order, testIds, queryable);
    var r := SelectQueryable(order, testIds, queryable, batch);
    assert forall k :: 0 <= k < |r| ==> r[k] == f[k];
    forall i | 0 <= i < |key| && testIds[i] in queryable
      ensures i in f
    {
      assert i in order;
      var j :| 0 <= j < |order| && order[j] == i;
    }
    forall i, k | 0 <= i < |key| && testIds[i] in queryable && i !in r && 0 <= k < |r|
      ensures key[r[k]] <= key[i]
    {
      var p :| 0 <= p < |f| && f[p] == i;
      assert forall q :: 0 <= q < |r| ==> f[q] in r;
      assert k < p;
    }
  }

  /** Whatever order an argsort returns (ties included), filtering and
      truncating it yields a selection that is bounded by `batch`,
      queryable, duplicate-free, ranked by score and a top-`batch` set. */
  lemma SelectionFromArgsort(key: seq<real>, testIds: seq<int>, queryable: set<int>, batch: int, order: seq<nat>)
    requires |key| <= |testIds|
    requires IsArgsort(order, key)
    ensures InRange(order, |testIds|)
    ensures var r := SelectQueryable(order, testIds, queryable, batch);
      && (batch >= 0 ==> |r| <= batch)
      && InRange(r, |key|)
      && (forall k :: 0 <= k < |r| ==> testIds[r[k]] in queryable)
      && Distinct(r)
      && SortedBy(r, key)
      && TopK(r, key, testIds, queryable, batch)
  {
    assert InRange(order, |testIds|);
    KeepQueryableSorted(order, testIds, queryable, key);
    KeepQueryableDistinct(order, testIds, queryable);
    PrefixKeepsOrder(SelectQueryable(order, testIds, queryable, batch), KeepQueryable(order, testIds, queryable), key);
    LeftOutScoresNoBetter(key, testIds, queryable, batch, order);
  }

  /** Stable insertion of row `x` into a list sorted by `key`. */
  function Insert(s: seq<nat>, x: nat, key: seq<real>): (r: seq<nat>)
    requires InRange(s, |key|) && x < |key|
    ensures |r| == |s| + 1
    ensures forall y :: y in r <==> y in s || y == x
    ensures InRange(r, |key|)
    ensures SortedBy(s, key) ==> SortedBy(r, key)
    ensures Distinct(s) && x !in s ==> Distinct(r)
  {
    if s == [] then [x]
    else if key[x] < key[s[0]] then [x] + s
    else
      var tail := Insert(s[1..], x, key);
      assert forall y :: y in s <==> y == s[0] || y in s[1..];
      assert SortedBy(s, key) ==> SortedBy(s[1..], key) && forall y :: y in s[1..] ==> key[s[0]] <= key[y];
      assert Distinct(s) ==> Distinct(s[1..]) && s[0] !in s[1..];
      [s[0]] + tail
  }

  /** `dist.argsort()`: some permutation of the rows in ascending score. */
  method ArgSort(key: seq<real>) returns (order: seq<nat>)
    ensures IsArgsort(order, key)
  {
    order := [];
    var i := 0;
    while i < |key|
      invariant 0 <= i <= |key|
      invariant |order| == i
      invariant InRange(order, i)
      invariant Distinct(order)
      invariant forall j :: 0 <= j < i ==> j in order
      invariant SortedBy(order, key)
    {
      var next := Insert(order, i, key);
      assert forall k :: 0 <= k < |next| ==> next[k] in next;
      order := next;
      i := i + 1;
    }
  }

  /** `uncertainty_sampling`: the row INDICES (not ids) of the `batch`
      queryable rows closest to probability 0.5 in column 1, closest first. */
  method UncertaintySampling(classProb: seq<seq<real>>, testIds: seq<int>, queryable: set<int>, batch: int)
    returns (r: seq<nat>)
    requires HasClassOne(classProb)
    requires |classProb| <= |testIds|
    ensures exists order :: IsArgsort(order, Scores(classProb))
                         && InRange(order, |testIds|)
                         && r == SelectQueryable(order, testIds, queryable, batch)
    ensures batch >= 0 ==> |r| <= batch
    ensures batch == 0 ==> r == []
    ensures (forall i :: 0 <= i < |classProb| ==> testIds[i] !in queryable) ==> r == []
    ensures forall k :: 0 <= k < |r| ==> r[k] < |classProb| && testIds[r[k]] in queryable
    ensures Distinct(r)
    ensures SortedBy(r, Scores(classProb))
    ensures TopK(r, Scores(classProb), testIds, queryable, batch)
  {
    var key := Scores(classProb);
    var order := ArgSort(key);
    SelectionFromArgsort(key, testIds, queryable, batch, order);
    r := SelectQueryable(order, testIds, queryable, batch);
  }

  /** When exactly two rows are queryable, a batch of two returns both,
      the better-scored one first. */
  lemma SelectsBothQueryableRows(key: seq<real>, testIds: seq<int>, queryable: set<int>, order: seq<nat>, a: nat, b: nat)
    requires |key| <= |testIds|
    requires IsArgsort(order, key)
    requires a < |key| && b < |key| && key[b] < key[a]
    requires testIds[a] in queryable && testIds[b] in queryable
    requires forall i :: 0 <= i < |key| && testIds[i] in queryable ==> i == a || i == b
    ensures SelectQueryable(order, testIds, queryable, 2) == [b, a]
  {
    SelectionFromArgsort(key, testIds, queryable, 2, order);
    var r := SelectQueryable(order, testIds, queryable, 2);
    assert forall k :: 0 <= k < |r| ==> r[k] == a || r[k] == b;
    assert |r| == 2;
    assert r[0] != r[1];
    assert key[r[0]] <= key[r[1]];
  }

  /** A four-row pool with ids 10, 20, 30, 40 and scores 0.4, 0, 0.1, 0.45,
      of which ids 10 and 30 are queryable: the two rows returned are rows 2
      and 0 (ids 30 then 10), whichever argsort order is used. Row 1 has the
      best score but its id is not queryable. */
  lemma UncertaintyWorkedExample(order: seq<nat>)
    requires IsArgsort(order, Scores([[0.9, 0.1], [0.5, 0.5], [0.6, 0.4], [0.95, 0.05]]))
    ensures SelectQueryable(order, [10, 20, 30, 40], {10, 30}, 2) == [2, 0]
  {
    var key := Scores([[0.9, 0.1], [0.5, 0.5], [0.6, 0.4], [0.95, 0.05]]);
    var ids := [10, 20, 30, 40];
    assert key[0] == 0.4 && key[2] == 0.1;
    assert forall i :: 0 <= i < |key| && ids[i] in {10, 30} ==> i == 0 || i == 2;
    SelectsBothQueryableRows(key, ids, {10, 30}, order, 0, 2);
  }

  // ----- Random sampling -----

  /** `random_sampling` as intended: the queryable rows of the drawn index
      sequence, in draw order, truncated to `batch`. The draw is a
      parameter; `np.random.randint(0, len(test_ids))` keeps it in range. */
  function RandomSampling(indx: seq<nat>, testIds: seq<int>, queryable: set<int>, batch: int): (r: seq<nat>)
    requires InRange(indx, |testIds|)
    ensures batch >= 0 ==> |r| <= batch
    ensures forall k :: 0 <= k < |r| ==> r[k] < |testIds| && testIds[r[k]] in queryable
    ensures IsSubsequence(r, indx)
    ensures r <= KeepQueryable(indx, testIds, queryable)
    ensures batch >= 0 ==> |r| == if batch < CountQueryable(indx, testIds, queryable)
                                  then batch else CountQueryable(indx, testIds, queryable)
    ensures batch < 0 ==> |r| == if CountQueryable(indx, testIds, queryable) + batch > 0
                                 then CountQueryable(indx, testIds, queryable) + batch else 0
    ensures batch >= 0 && |r| < batch ==>
      forall k :: 0 <= k < |indx| && testIds[indx[k]] in queryable ==> indx[k] in r
  {
    var f := KeepQueryable(indx, testIds, queryable);
    var r := SelectQueryable(indx, testIds, queryable, batch);
    PrefixIsSubsequence(r, f);
    SubsequenceTransitive(r, f, indx);
    r
  }

  /** The corrected draw: a permutation of the rows (without replacement).
      The selection then has no duplicates, and a batch at least as large
      as the pool returns exactly the queryable rows. */
  function RandomSamplingWithoutReplacement(perm: seq<nat>, testIds: seq<int>, queryable: set<int>, batch: int): (r: seq<nat>)
    requires IsRowPermutation(perm, |testIds|)
    ensures batch >= 0 ==> |r| <= batch
    ensures forall k :: 0 <= k < |r| ==> r[k] < |testIds| && testIds[r[k]] in queryable
    ensures Distinct(r)
    ensures batch >= |testIds| ==>
      forall i :: 0 <= i < |testIds| ==> (i in r <==> testIds[i] in queryable)
  {
    var r := RandomSampling(perm, testIds, queryable, batch);
    KeepQueryableDistinct(perm, testIds, queryable);
    assert forall k :: 0 <= k < |r| ==> r[k] == KeepQueryable(perm, testIds, queryable)[k];
    assert batch >= |testIds| ==> forall i :: 0 <= i < |testIds| && testIds[i] in queryable ==> i in r by {
      if batch >= |testIds| {
        forall i | 0 <= i < |testIds| && testIds[i] in queryable ensures i in r {
          assert i in perm;
          var j :| 0 <= j < |perm| && perm[j] == i;
        }
      }
    }
    r
  }

  /** With replacement, as line 106 draws, a row can be selected twice:
      on a two-row pool the draw `[0, 0]` is one of the four possible. */
  lemma DrawWithReplacementRepeats()
    ensures RandomSampling([0, 0], [7, 8], {7}, 2) == [0, 0]
    ensures !Distinct(RandomSampling([0, 0], [7, 8], {7}, 2))
  {
  }

  datatype PyError = NameError(name: string) | IndexError

  /** A boolean mask applied to a sequence: `s[mask]`. */
  function Masked(s: seq<nat>, mask: seq<bool>): (r: seq<nat>)
    requires |s| == |mask|
    ensures IsSubsequence(r, s)
  {
    if s == [] then []
    else if mask[0] then [s[0]] + Masked(s[1..], mask[1..])
    else Masked(s[1..], mask[1..])
  }

  /** `pd.Series(test_ids[order]).isin(queryable_ids)`. */
  function QueryableMask(order: seq<nat>, testIds: seq<int>, queryable: set<int>): (m: seq<bool>)
    requires InRange(order, |testIds|)
    ensures |m| == |order|
    ensures forall k :: 0 <= k < |m| ==> (m[k] <==> testIds[order[k]] in queryable)
  {
    seq(|order|, k requires 0 <= k < |order| => testIds[order[k]] in queryable)
  }

  /** `random_sampling` as written: the mask is computed from whatever the
      name `order` is bound to in `scope`, then applied to `indx`. The
      function's own scope never binds `order`. */
  function RandomSamplingAsWritten(scope: map<string, seq<nat>>, indx: seq<nat>, testIds: seq<int>,
                                   queryable: set<int>, batch: int): (r: Result<seq<nat>, PyError>)
    ensures "order" !in scope ==> r == Failure(NameError("order"))
    ensures "order" in scope && r.Success? ==> |scope["order"]| == |indx|
  {
    if "order" !in scope then Failure(NameError("order"))
    else
      var order := scope["order"];
      if !InRange(order, |testIds|) || |order| != |indx| then Failure(IndexError)
      else
        Success(SlicePrefix(Masked(indx, QueryableMask(order, testIds, queryable)), batch))
  }

  /** The function's local names when line 109 runs: only the draw. */
  function LocalScope(indx: seq<nat>): map<string, seq<nat>>
  {
    map["indx" := indx]
  }

  /** Line 109 always raises, whatever the inputs, where the intended
      strategy returns a selection; and were `order` bound to a stale
      ordering, the mask would let through a row whose id is not queryable. */
  lemma RandomSamplingAsWrittenFails(indx: seq<nat>, testIds: seq<int>, queryable: set<int>, batch: int)
    ensures RandomSamplingAsWritten(LocalScope(indx), indx, testIds, queryable, batch) == Failure(NameError("order"))
    ensures RandomSamplingAsWritten(map["order" := [1, 0]], [0, 1], [10, 20], {10}, 1) == Success([1])
    ensures RandomSampling([0, 1], [10, 20], {10}, 1) == [0]
  {
    assert InRange([1, 0], 2);
    var mask := QueryableMask([1, 0], [10, 20], {10});
    assert mask == [false, true];
    assert Masked([0, 1], mask) == [1] by {
      assert [0, 1][1..] == [1];
      assert mask[1..] == [true];
      assert Masked([1], [true]) == [1] by {
        assert [1][1..] == [];
        assert [true][1..] == [];
      }
    }
    assert SlicePrefix([1], 1) == [1];
    assert KeepQueryable([0, 1], [10, 20], {10}) == [0] by {
      assert [0, 1][1..] == [1];
      assert KeepQueryable([1], [10, 20], {10}) == [];
    }
  }
}

=== FILE: snpcc_header.dfy ===
/** The keyword dispatch of `LightCurve.load_snpcc_lc` (fit_lightcurves.py)
    over a file that has already been read and split into whitespace tokens.

    Values are kept as the raw tokens the file holds: the `int(...)` and
    `float(...)` conversions of the SNID, redshift, peak-magnitude and
    photometry columns are not part of this model. */
module SnpccHeader {
  import opened Common

  type Line = seq<string>

  /** `sample`: `'test'` or `'train'`. */
  datatype Sample = Test | Train

  /** `sntype`: the general class a simulation code stands for. */
  datatype SnType = Ia | II | Ibc

  /** `ValueError('Unknown supernova type!')`. The source's message names
      no code; the model carries the offending code so that the error can
      be traced back to the line that raised it. */
  datatype HeaderError = UnknownType(code: string)

  /** The codes the source maps to type II (only membership is ever asked
      of the source's list, so a set carries the same information). */
  const SnIICodes: set<string> :=
    {"2", "3", "4", "12", "15", "17", "19", "20", "21", "24", "25", "26",
     "27", "30", "31", "32", "33", "34", "35", "36", "37", "38", "39", "40",
     "41", "42", "43", "44"}

  /** The codes the source maps to type Ibc. */
  const SnIbcCodes: set<string> :=
    {"1", "5", "6", "7", "8", "9", "10", "11", "13", "14", "16", "18",
     "22", "23", "29", "45", "28"}

  /** The code of a type Ia simulation. */
  const SnIaCode: string := "0"

  /** The header fields `load_snpcc_lc` sets. A `None` field was not seen
      in the file and keeps the constructor's default. */
  datatype Header = Header(
    snid: Option<string>,
    sample: Option<Sample>,
    redshift: Option<string>,
    sncode: Option<string>,
    sntype: Option<SnType>,
    varlist: seq<string>,
    obs: seq<Line>,
    simPeakmag: seq<string>)

  const Initial: Header := Header(None, None, None, None, None, [], [], [])

  /** The type a `SIM_NON1a:` code stands for; any other code raises
      `ValueError('Unknown supernova type!')`. The Ibc list is consulted
      first, then the II list, then the Ia code. */
  function Classify(code: string): (r: Result<SnType, HeaderError>)
    ensures r == Success(Ibc) <==> code in SnIbcCodes
    ensures r == Success(II) <==> code in SnIICodes
    ensures r == Success(Ia) <==> code == SnIaCode
    ensures r.Failure? <==> code !in SnIbcCodes && code !in SnIICodes && code != SnIaCode
    ensures r.Failure? ==> r.error == UnknownType(code)
  {
    CodeListsDisjoint();
    if code in SnIbcCodes then Success(Ibc)
    else if code in SnIICodes then Success(II)
    else if code == SnIaCode then Success(Ia)
    else Failure(UnknownType(code))
  }

  /** No code sits in both lists, and neither list holds the Ia code, so
      the order in which `Classify` consults them does not matter. */
  lemma CodeListsDisjoint()
    ensures SnIICodes !! SnIbcCodes
    ensures SnIaCode !in SnIICodes && SnIaCode !in SnIbcCodes
  {
  }

  /** `len(line) > 1`: the lines the dispatch looks at. */
  predicate Informative(line: Line)
  {
    |line| > 1
  }

  /** How many lines of the file (repeats counted) are informative. */
  function CountInformative(lines: seq<Line>): nat
  {
    if lines == [] then 0
    else (if Informative(lines[0]) then 1 else 0) + CountInformative(lines[1..])
  }

  /** `data_all[flag_lines]`: the informative lines, in file order, each
      kept as often as it occurs in the file. */
  function InformativeLines(lines: seq<Line>): (r: seq<Line>)
    ensures |r| == CountInformative(lines)
    ensures forall k :: 0 <= k < |r| ==> Informative(r[k])
    ensures forall l :: l in lines && Informative(l) ==> l in r
    ensures IsSubsequence(r, lines)
  {
    if lines == [] then []
    else if Informative(lines[0]) then [lines[0]] + InformativeLines(lines[1..])
    else InformativeLines(lines[1..])
  }

  /** `line[1:5]`: at most four values after the keyword. */
  function PeakMagTokens(line: Line): (r: seq<string>)
    requires Informative(line)
    ensures |r| == if |line| < 5 then |line| - 1 else 4
    ensures forall k :: 0 <= k < |r| ==> r[k] == line[k + 1]
  {
    line[1..if |line| < 5 then |line| else 5]
  }

  /** One pass of the `for line in data` loop over an informative line. */
  function Step(h: Header, line: Line): Result<Header, HeaderError>
    requires Informative(line)
  {
    var key := line[0];
    if key == "SNID:" then Success(h.(snid := Some(line[1])))
    else if key == "SNTYPE:" then Success(h.(sample := Some(if line[1] == "-9" then Test else Train)))
    else if key == "SIM_REDSHIFT:" then Success(h.(redshift := Some(line[1])))
    else if key == "SIM_NON1a:" then
      match Classify(line[1])
      case Success(t) => Success(h.(sncode := Some(line[1]), sntype := Some(t)))
      case Failure(e) => Failure(e)
    else if key == "VARLIST:" then Success(h.(varlist := line[1..]))
    else if key == "OBS:" then Success(h.(obs := h.obs + [line[1..]]))
    else if key == "SIM_PEAKMAG:" then Success(h.(simPeakmag := PeakMagTokens(line)))
    else Success(h)
  }

  /** The loop over informative lines; the first unknown type code aborts. */
  function Dispatch(h: Header, lines: seq<Line>): Result<Header, HeaderError>
    requires forall k :: 0 <= k < |lines| ==> Informative(lines[k])
    decreases |lines|
  {
    if lines == [] then Success(h)
    else
      match Step(h, lines[0])
      case Success(h') => Dispatch(h', lines[1..])
      case Failure(e) => Failure(e)
  }

  /** `load_snpcc_lc` from the tokenised lines on: filter, then dispatch.
      The photometry table built after the loop is not part of this model. */
  function Load(lines: seq<Line>): Result<Header, HeaderError>
  {
    Dispatch(Initial, InformativeLines(lines))
  }

  // ----- Reference views of the file, read straight off the raw lines -----

  /** An informative line that starts with `key`. */
  predicate KeyLine(line: Line, key: string)
  {
    Informative(line) && line[0] == key
  }

  /** The LAST informative line starting with `key`. */
  function LastLine(lines: seq<Line>, key: string): (r: Option<Line>)
    ensures r.Some? <==> exists k :: 0 <= k < |lines| && KeyLine(lines[k], key)
    ensures r.Some? ==> KeyLine(r.value, key) && r.value in lines
    decreases |lines|
  {
    if lines == [] then None
    else if KeyLine(lines[|lines| - 1], key) then Some(lines[|lines| - 1])
    else
      var r := LastLine(lines[..|lines| - 1], key);
      assert forall k :: 0 <= k < |lines| - 1 ==> lines[..|lines| - 1][k] == lines[k];
      r
  }

  /** The second token of the last informative line starting with `key`. */
  function LastValue(lines: seq<Line>, key: string): Option<string>
  {
    match LastLine(lines, key)
    case None => None
    case Some(line) => Some(line[1])
  }

  /** The data columns of every `OBS:` line, in file order. */
  function ObsRows(lines: seq<Line>): seq<Line>
  {
    if lines == [] then []
    else if KeyLine(lines[0], "OBS:") then [lines[0][1..]] + ObsRows(lines[1..])
    else ObsRows(lines[1..])
  }

  /** A `SIM_NON1a:` line whose code is in neither list nor the Ia code. */
  predicate BadTypeLine(line: Line)
  {
    KeyLine(line, "SIM_NON1a:") && Classify(line[1]).Failure?
  }

  /** The code of the first line, in file order, that carries an unknown
      type code. */
  function FirstBadCode(lines: seq<Line>): (r: Option<string>)
    ensures r.Some? ==> exists i :: 0 <= i < |lines| && BadTypeLine(lines[i]) && r.value == lines[i][1]
                                   && forall j :: 0 <= j < i ==> !BadTypeLine(lines[j])
    ensures r.None? ==> forall i :: 0 <= i < |lines| ==> !BadTypeLine(lines[i])
  {
    if lines == [] then None
    else if BadTypeLine(lines[0]) then Some(lines[0][1])
    else
      var r := FirstBadCode(lines[1..]);
      assert forall i :: 1 <= i < |lines| ==> lines[i] == lines[1..][i - 1];
      assert r.Some? ==> exists i :: 1 <= i < |lines| && BadTypeLine(lines[i]) && r.value == lines[i][1]
                                   && forall j :: 0 <= j < i ==> !BadTypeLine(lines[j]) by {
        if r.Some? {
          var i :| 0 <= i < |lines[1..]| && BadTypeLine(lines[1..][i]) && r.value == lines[1..][i][1]
                   && forall j :: 0 <= j < i ==> !BadTypeLine(lines[1..][j]);
          assert forall j :: 0 <= j < i + 1 ==> !BadTypeLine(lines[j]) by {
            forall j | 0 <= j < i + 1 ensures !BadTypeLine(lines[j]) {
              if j > 0 { assert lines[j] == lines[1..][j - 1]; }
            }
          }
        }
      }
      r
  }

  function SampleOf(token: Option<string>): Option<Sample>
  {
    match token
    case None => None
    case Some(t) => Some(if t == "-9" then Test else Train)
  }

  function TypeOf(code: Option<string>): Option<SnType>
  {
    match code
    case None => None
    case Some(c) => if Classify(c).Success? then Some(Classify(c).value) else None
  }

  // ----- Properties of the dispatch -----

  lemma {:induction false} InformativeLinesAppend(a: seq<Line>, b: seq<Line>)
    ensures InformativeLines(a + b) == InformativeLines(a) + InformativeLines(b)
  {
    if a == [] {
      assert a + b == b;
    } else {
      assert (a + b)[0] == a[0];
      assert (a + b)[1..] == a[1..] + b;
      InformativeLinesAppend(a[1..], b);
    }
  }

  /** A line of at most one token (blank, or a lone keyword) changes
      nothing, wherever it sits in the file. */
  lemma ShortLineIgnored(before: seq<Line>, line: Line, after: seq<Line>)
    requires !Informative(line)
    ensures Load(before + [line] + after) == Load(before + after)
  {
    InformativeLinesAppend(before + [line], after);
    InformativeLinesAppend(before, [line]);
    InformativeLinesAppend(before, after);
    assert [line][1..] == [];
    assert InformativeLines([line]) == [];
    assert InformativeLines(before + [line]) == InformativeLines(before);
  }

  /** A keyed field takes the value of the last line that sets it. */
  lemma {:induction false} DispatchLastWins(h: Header, lines: seq<Line>)
    requires forall k :: 0 <= k < |lines| ==> Informative(lines[k])
    ensures Dispatch(h, lines).Success? ==>
      var r := Dispatch(h, lines).value;
      && r.snid == (if LastValue(lines, "SNID:").Some? then LastValue(lines, "SNID:") else h.snid)
      && r.redshift == (if LastValue(lines, "SIM_REDSHIFT:").Some? then LastValue(lines, "SIM_REDSHIFT:") else h.redshift)
      && r.sample == (if LastValue(lines, "SNTYPE:").Some? then SampleOf(LastValue(lines, "SNTYPE:")) else h.sample)
      && r.sncode == (if LastValue(lines, "SIM_NON1a:").Some? then LastValue(lines, "SIM_NON1a:") else h.sncode)
      && r.sntype == (if LastValue(lines, "SIM_NON1a:").Some? then TypeOf(LastValue(lines, "SIM_NON1a:")) else h.sntype)
      && r.obs == h.obs + ObsRows(lines)
    decreases |lines|
  {
    if lines != [] && Step(h, lines[0]).Success? {
      var h' := Step(h, lines[0]).value;
      StepEffect(h, lines[0]);
      DispatchLastWins(h', lines[1..]);
      assert lines == [lines[0]] + lines[1..];
      LastValueCons(lines, "SNID:");
      LastValueCons(lines, "SIM_REDSHIFT:");
      LastValueCons(lines, "SNTYPE:");
      LastValueCons(lines, "SIM_NON1a:");
    }
  }

  /** The whole-line fields: VARLIST keeps the column names of its last
      line, SIM_PEAKMAG at most four values of its last line. */
  lemma {:induction false} DispatchLastLineFields(h: Header, lines: seq<Line>)
    requires forall k :: 0 <= k < |lines| ==> Informative(lines[k])
    ensures Dispatch(h, lines).Success? ==>
      var r := Dispatch(h, lines).value;
      && r.varlist == (if LastLine(lines, "VARLIST:").Some? then LastLine(lines, "VARLIST:").value[1..] else h.varlist)
      && r.simPeakmag == (if LastLine(lines, "SIM_PEAKMAG:").Some? then PeakMagTokens(LastLine(lines, "SIM_PEAKMAG:").value) else h.simPeakmag)
    decreases |lines|
  {
    if lines != [] && Step(h, lines[0]).Success? {
      var h' := Step(h, lines[0]).value;
      StepEffect(h, lines[0]);
      DispatchLastLineFields(h', lines[1..]);
      LastLineCons(lines, "VARLIST:");
      LastLineCons(lines, "SIM_PEAKMAG:");
    }
  }

  /** What one successful step changes: only the field its keyword names. */
  lemma StepEffect(h: Header, line: Line)
    requires Informative(line)
    ensures Step(h, line).Success? ==>
      var h' := Step(h, line).value;
      && h'.snid == (if KeyLine(line, "SNID:") then Some(line[1]) else h.snid)
      && h'.redshift == (if KeyLine(line, "SIM_REDSHIFT:") then Some(line[1]) else h.redshift)
      && h'.sample == (if KeyLine(line, "SNTYPE:") then SampleOf(Some(line[1])) else h.sample)
      && h'.sncode == (if KeyLine(line, "SIM_NON1a:") then Some(line[1]) else h.sncode)
      && h'.sntype == (if KeyLine(line, "SIM_NON1a:") then TypeOf(Some(line[1])) else h.sntype)
      && h'.obs == h.obs + (if KeyLine(line, "OBS:") then [line[1..]] else [])
      && h'.varlist == (if KeyLine(line, "VARLIST:") then line[1..] else h.varlist)
      && h'.simPeakmag == (if KeyLine(line, "SIM_PEAKMAG:") then PeakMagTokens(line) else h.simPeakmag)
  {
  }

  /** `LastValue` read front to back: the tail's last value wins over the head. */
  lemma LastValueCons(lines: seq<Line>, key: string)
    requires lines != []
    ensures LastValue(lines, key) ==
      if LastValue(lines[1..], key).Some? then LastValue(lines[1..], key)
      else if KeyLine(lines[0], key) then Some(lines[0][1])
      else None
  {
    LastLineCons(lines, key);
  }

  /** `LastLine` read front to back: the tail's last line wins over the head. */
  lemma {:induction false} LastLineCons(lines: seq<Line>, key: string)
    requires lines != []
    ensures LastLine(lines, key) ==
      if LastLine(lines[1..], key).Some? then LastLine(lines[1..], key)
      else if KeyLine(lines[0], key) then Some(lines[0])
      else None
    decreases |lines|
  {
    if |lines| > 1 && !KeyLine(lines[|lines| - 1], key) {
      var init := lines[..|lines| - 1];
      LastLineCons(init, key);
      assert init[1..] == lines[1..][..|lines[1..]| - 1];
      assert init[0] == lines[0];
    }
  }

  /** The loop aborts exactly when some line carries an unknown type code. */
  lemma {:induction false} DispatchFailsIffBadType(h: Header, lines: seq<Line>)
    requires forall k :: 0 <= k < |lines| ==> Informative(lines[k])
    ensures Dispatch(h, lines).Failure? <==> exists l :: l in lines && BadTypeLine(l)
    decreases |lines|
  {
    if lines != [] {
      if Step(h, lines[0]).Success? {
        DispatchFailsIffBadType(Step(h, lines[0]).value, lines[1..]);
        assert !BadTypeLine(lines[0]);
        assert lines == [lines[0]] + lines[1..];
      } else {
        assert BadTypeLine(lines[0]);
      }
    }
  }

  lemma {:induction false} LastLineInformative(lines: seq<Line>, key: string)
    ensures LastLine(InformativeLines(lines), key) == LastLine(lines, key)
    decreases |lines|
  {
    if lines != [] {
      LastLineInformative(lines[1..], key);
      LastLineCons(lines, key);
      if Informative(lines[0]) {
        var il := InformativeLines(lines);
        assert il == [lines[0]] + InformativeLines(lines[1..]);
        LastLineCons(il, key);
        assert il[1..] == InformativeLines(lines[1..]);
      }
    }
  }

  lemma {:induction false} ObsRowsInformative(lines: seq<Line>)
    ensures ObsRows(InformativeLines(lines)) == ObsRows(lines)
    decreases |lines|
  {
    if lines != [] {
      ObsRowsInformative(lines[1..]);
      if Informative(lines[0]) {
        assert InformativeLines(lines)[1..] == InformativeLines(lines[1..]);
      }
    }
  }

  /** What a successful load holds, read straight off the file: each keyed
      field comes from the last line that sets it (SNTYPE `-9` meaning
      test, anything else train), and the `OBS:` rows come in file order. */
  lemma LoadFields(lines: seq<Line>)
    ensures Load(lines).Success? ==>
      var r := Load(lines).value;
      && r.snid == LastValue(lines, "SNID:")
      && r.redshift == LastValue(lines, "SIM_REDSHIFT:")
      && r.sample == SampleOf(LastValue(lines, "SNTYPE:"))
      && r.sncode == LastValue(lines, "SIM_NON1a:")
      && r.sntype == TypeOf(LastValue(lines, "SIM_NON1a:"))
      && r.varlist == (if LastLine(lines, "VARLIST:").Some? then LastLine(lines, "VARLIST:").value[1..] else [])
      && r.simPeakmag == (if LastLine(lines, "SIM_PEAKMAG:").Some? then PeakMagTokens(LastLine(lines, "SIM_PEAKMAG:").value) else [])
      && r.obs == ObsRows(lines)
  {
    var il := InformativeLines(lines);
    DispatchLastWins(Initial, il);
    DispatchLastLineFields(Initial, il);
    LastLineInformative(lines, "SNID:");
    LastLineInformative(lines, "SIM_REDSHIFT:");
    LastLineInformative(lines, "SNTYPE:");
    LastLineInformative(lines, "SIM_NON1a:");
    LastLineInformative(lines, "VARLIST:");
    LastLineInformative(lines, "SIM_PEAKMAG:");
    ObsRowsInformative(lines);
  }

  /** The header dispatch fails exactly when the file holds a `SIM_NON1a:`
      line whose code is neither Ia, II nor Ibc. (The table building that
      follows the dispatch can raise as well; it is not part of this model.) */
  lemma LoadFailsIffBadType(lines: seq<Line>)
    ensures Load(lines).Failure? <==> exists l :: l in lines && BadTypeLine(l)
    ensures Load(lines).Failure? ==> exists l :: l in lines && BadTypeLine(l) && Load(lines).error == UnknownType(l[1])
  {
    var il := InformativeLines(lines);
    DispatchFailsIffBadType(Initial, il);
    SubsequenceMembers(il, lines);
    DispatchErrorIsBadCode(Initial, il);
  }

  /** The loop stops at the first bad line: its error is that line's code. */
  lemma {:induction false} DispatchStopsAtFirstBadLine(h: Header, lines: seq<Line>)
    requires forall k :: 0 <= k < |lines| ==> Informative(lines[k])
    ensures Dispatch(h, lines).Failure? <==> FirstBadCode(lines).Some?
    ensures Dispatch(h, lines).Failure? ==> Dispatch(h, lines).error == UnknownType(FirstBadCode(lines).value)
    decreases |lines|
  {
    if lines != [] {
      if Step(h, lines[0]).Success? {
        assert !BadTypeLine(lines[0]);
        DispatchStopsAtFirstBadLine(Step(h, lines[0]).value, lines[1..]);
      } else {
        assert BadTypeLine(lines[0]);
      }
    }
  }

  /** Dropping uninformative lines does not change which bad line is first. */
  lemma {:induction false} FirstBadCodeInformative(lines: seq<Line>)
    ensures FirstBadCode(InformativeLines(lines)) == FirstBadCode(lines)
    decreases |lines|
  {
    if lines != [] {
      FirstBadCodeInformative(lines[1..]);
      if Informative(lines[0]) {
        assert InformativeLines(lines)[1..] == InformativeLines(lines[1..]);
      }
    }
  }

  /** Loading fails exactly when some line has an unknown type code, and
      the error is raised by the first such line in file order. */
  lemma LoadStopsAtFirstBadLine(lines: seq<Line>)
    ensures Load(lines).Failure? <==> FirstBadCode(lines).Some?
    ensures Load(lines).Failure? ==> Load(lines).error == UnknownType(FirstBadCode(lines).value)
  {
    DispatchStopsAtFirstBadLine(Initial, InformativeLines(lines));
    FirstBadCodeInformative(lines);
  }

  /** The error a failing loop reports names the code of a bad line. */
  lemma {:induction false} DispatchErrorIsBadCode(h: Header, lines: seq<Line>)
    requires forall k :: 0 <= k < |lines| ==> Informative(lines[k])
    ensures Dispatch(h, lines).Failure? ==>
      exists l :: l in lines && BadTypeLine(l) && Dispatch(h, lines).error == UnknownType(l[1])
    decreases |lines|
  {
    if lines != [] {
      if Step(h, lines[0]).Success? {
        DispatchErrorIsBadCode(Step(h, lines[0]).value, lines[1..]);
      } else {
        assert BadTypeLine(lines[0]);
      }
    }
  }
}
